=== FILE: README.md ===
# Authenticated HTTP client of the bumbeez mobile app, in Dafny

This project models the client side of the app's token protocol: the shared
axios instance, with its request interceptor (attach `Authorization: Bearer
<access token>`) and its response-error handler (classify a failure, and on a
401 from a protected route read the stored refresh token, refresh, replay the
request once). It also models the two pieces of state that handler drives. The
first is the `auth` slice of the store (access token and user). The second is
the secure-storage slot `refreshToken`. The auth endpoint wrappers (`register`,
`login`, `refreshToken`, `logout`) are modelled too.

Everything is a pure function over immutable values:

- `Http.State` holds the session, the refresh-token slot (`Option<string>`),
  whether a snackbar handler is registered, the log of notices `showError`
  produced (snackbar or console warning), and the log of requests put on the wire.
- Network answers are parameters (`Reply<T>`): whether a response arrived, its
  status and body, the error code, the refresh call's reply and the replay's reply.
- Every call ends in one `Outcome`: resolve with a value, or reject with an HTTP
  error or with a `TypeError` raised by the handler itself.

Modules:

- `Optional`: the `Option` type.
- `Text`: string truthiness and `String.prototype.includes`.
- `AuthSlice` models `src/store/authSlice.ts`.
- `Http` models the request interceptor, `showError`, and the failure paths
  that never refresh (`src/api/axiosInstance.ts`).
- `AuthApi` models `src/api/auth.ts`.
- `ResponseHandler` models the full error handler with the refresh and replay
  branch. It also holds `Call` (one `axiosInstance(request)`) and the
  request-lifecycle reference definition `FateOf`.

`auth.ts` and `axiosInstance.ts` import each other. The model breaks that cycle
by layering. Every wrapper request targets an `/auth/...` URL, so its failures
never reach the refresh branch. The wrappers therefore go through `Http.Post`.
`ResponseHandler.CallAgreesWithPost` proves that the full pipeline equals
`Http.Post` on such requests, for every reply type the wrappers use.

### Behaviour of the code worth knowing

- After a successful refresh, the session's user is the user the refresh reply
  carried, not the user held before. `refreshToken` in `src/api/auth.ts:28`
  already stores the reply's user, and `src/api/axiosInstance.ts:105` then reads
  that value back. If the reply has no user, the session ends up with a token
  and no user (`ResponseHandler.RefreshCanDropUser`).
- A failed refresh can post two notices for one failure. The refresh call's own
  failure is handled by the same interceptor, on an auth route, and is never
  silent. Then the session-expired notice follows
  (`ResponseHandler.RefreshFailureNotifiesTwice`).
- A 401 on an auth route shows the server's message even when the request
  opted out of notices.
- Neither a failed refresh nor a missing token deletes the stored refresh token.
  There is no single-flight refresh guard.
- `logout` clears the session only when the remote call succeeds.

## Model

| member | source | states |
|---|---|---|
| `Text.Contains` | src/api/axiosInstance.ts:78-80 | `includes` holds only when the needle fits in the URL, and always when the URL starts with it |
| `Text.ContainsIffOccurs` | src/api/axiosInstance.ts:78-80 | `includes` holds exactly when the needle occurs at some position of the URL |
| `Http.AuthPathIsAuthRoute` | src/api/axiosInstance.ts:78-80 | every `/auth/<name>` URL passes the auth-route test, so the wrappers' calls are never refreshed |
| `AuthSlice.Initial` | src/store/authSlice.ts:9-12 | the store starts signed out, with token and user both absent |
| `AuthSlice.SetCredentials` | src/store/authSlice.ts:18-23 | the session reads back as exactly the payload; it satisfies the both-or-neither invariant exactly when the payload has a user |
| `AuthSlice.Logout` | src/store/authSlice.ts:26-29 | after logout neither a token nor a user is held |
| `AuthSlice.SetCredentialsForgetsPrior` | src/store/authSlice.ts:18-23 | the result of `setCredentials` does not depend on the prior session |
| `AuthSlice.LogoutIdempotent` | src/store/authSlice.ts:26-29 | logout from any state returns to the initial state, so applying it twice equals applying it once |
| `AuthSlice.ReducersKeepConsistency` | src/store/authSlice.ts:18-29 | both reducers establish the both-or-neither invariant when the payload carries a user |
| `AuthSlice.MissingUserBreaksConsistency` | src/api/axiosInstance.ts:102-106 | the non-null assertion on the user is not checked at run time; a payload without a user breaks the invariant |
| `Http.ShowError` | src/api/axiosInstance.ts:23-29 | a message goes to the snackbar with error severity when a handler is registered, otherwise to a console warning |
| `Http.Notices` | src/api/axiosInstance.ts:23-29 | a batch of messages shown in turn yields one notice per message, each routed as `showError` routes it |
| `Http.SetSnackbarHandler` | src/api/axiosInstance.ts:18-20 | after registration notices reach the snackbar; nothing else changes |
| `Http.HasToken` | src/api/axiosInstance.ts:35 | the `token &&` test passes exactly for a token that is neither null nor empty |
| `Http.IsAuthRoute` | src/api/axiosInstance.ts:78-80 | a URL is an auth route exactly when it is present and `/login`, `/register` or `/auth` occurs at some position in it |
| `Http.EntersRefresh` | src/api/axiosInstance.ts:74-82 | only a 401 enters the refresh branch, and every first 401 on a non-auth route does |
| `Http.RetryClosesRefresh` | src/api/axiosInstance.ts:74-89 | once a request that entered the refresh branch is marked retried, no later failure of it enters the branch again |
| `Http.Intercept` | src/api/axiosInstance.ts:31-45 | with a truthy token the `Authorization` header is `Bearer <token>`, whatever it was; every other header, URL, body and flag is kept; with no or an empty token the request is unchanged |
| `Http.InterceptIdempotent` | src/api/axiosInstance.ts:35-37 | intercepting twice gives the same request as intercepting once |
| `Http.InterceptOverwrites` | src/api/axiosInstance.ts:35-37 | with a token, a prior `Authorization` value has no influence on the outgoing request |
| `Http.Fallback` | src/api/axiosInstance.ts:123-154 | each fixed message belongs to exactly its statuses: bad request to 400, forbidden to 403, not found to 404, conflict to 409, too many requests to 429, server down to 500, 502 and 503; every other status gets the generic message carrying the status |
| `Http.StatusMessage` | src/api/axiosInstance.ts:122-155 | the server's message is used exactly when the status has no fixed message and the server gave a non-empty one; otherwise the fallback |
| `Http.NoResponse` | src/api/axiosInstance.ts:56-69 | no response: exactly one notice unless silent, the timeout notice exactly when the code is `ECONNABORTED`, else unreachable; the original error is rejected |
| `Http.AuthRouteRejection` | src/api/axiosInstance.ts:82-86 | 401 on an auth route: the server's message is shown with no silent check and the error is rejected; a null body makes the handler throw a TypeError instead |
| `Http.StatusFailure` | src/api/axiosInstance.ts:121-157 | other answered failures: one table notice when not silent and the status is at least 400, none otherwise; the original error is rejected |
| `Http.Settle` | src/api/axiosInstance.ts:56-157 | a failure that does not refresh posts at most one notice and rejects with the original error, or with a TypeError only for a 401 with a null body |
| `Http.Post` | src/api/axiosInstance.ts:31-157 | a call on an auth route or a replay sends the intercepted request once, leaves session and slot alone, resolves with the reply and no notice, or rejects with exactly what the interceptor settles the failure to, after exactly that settlement's notices |
| `AuthApi.Register` | src/api/auth.ts:7-15 | posts the four fields to `/auth/register` and resolves with the response body unchanged; no session or slot effect |
| `AuthApi.Login` | src/api/auth.ts:17-23 | on success the session holds the reply's token and user and the slot the reply's refresh token, with no notice; on failure neither changes, the notice log gains only the interceptor's settlement of the failure, and the call rejects with that settlement's reason |
| `AuthApi.RefreshToken` | src/api/auth.ts:25-31 | posts the stored token to `/auth/refresh`; on success the session becomes the reply's token and (possibly absent) user and the slot the rotated token; on failure nothing but the notices changes and the call rejects as the interceptor settles it |
| `AuthApi.Logout` | src/api/auth.ts:33-37 | the slot ends empty whatever the server says; the session is cleared only when the remote call succeeds; the call carries the current bearer token; on failure the notice log gains only the interceptor's settlement of the failure, and the call rejects with that settlement's reason |
| `AuthApi.LoginThenLogoutForgetsAll` | src/api/auth.ts:17-37 | a successful login followed by a successful logout leaves no session and no stored token |
| `AuthApi.LogoutTwice` | src/api/auth.ts:33-37 | a second logout, with no session left, ends with the same session and slot as the first |
| `AuthApi.LoginAuthorizesLaterRequests` | src/api/auth.ts:17-23 | after a successful login that returned a non-empty access token, every request goes out with `Bearer <new access token>` |
| `AuthApi.FailedSignInChangesNothing` | src/api/auth.ts:17-31 | a failed login or refresh leaves the session and the slot as they were |
| `ResponseHandler.Usable` | src/api/axiosInstance.ts:91-92 | the stored token counts as present exactly when it is neither null nor empty |
| `ResponseHandler.HandlerNoticesAreErrors` | src/api/axiosInstance.ts:23-29 | every notice the handler posts goes through `showError`: an error-severity snackbar when a handler is registered, a console warning otherwise |
| `ResponseHandler.RegisteredSnackbarShowsErrors` | src/api/axiosInstance.ts:18-29 | after `setSnackbarHandler`, every notice the error handler posts is an error-severity snackbar, never a console warning |
| `ResponseHandler.RegisterIsOneCall` | src/api/auth.ts:7-15 | `register` has exactly the effects and outcome of one call through the full pipeline, whatever the refresh replies would be |
| `ResponseHandler.SignInCallsAreOneCall` | src/api/auth.ts:17-29 | the network steps of `login` and `refreshToken` are each one call through the full pipeline, with the same state and outcome, never refreshed |
| `ResponseHandler.HandleError` | src/api/axiosInstance.ts:52-158 | the notice and wire logs only grow, by at most two calls; the slot is kept or becomes the rotated token; the caller resolves only with the replay's response |
| `ResponseHandler.Call` | src/api/axiosInstance.ts:31-158 | one call sends the intercepted request first; a success resolves with the response and changes nothing else |
| `ResponseHandler.NetworkFailure` | src/api/axiosInstance.ts:56-69 | no response: session, slot and wire untouched, no refresh; no notice if silent, else the timeout or unreachable notice; the original error is rejected |
| `ResponseHandler.AuthRouteRejected` | src/api/axiosInstance.ts:74-86 | first 401 on an auth route: no refresh and no state change; the server's message is posted and the original error rejected |
| `ResponseHandler.AuthRouteIgnoresSilent` | src/api/axiosInstance.ts:82-86 | on an auth route the silent flag changes neither the effects nor the outcome |
| `ResponseHandler.RetryMarker` | src/api/axiosInstance.ts:74-91 | a request already retried never refreshes; a request entering the refresh branch leaves marked retried on every path, and so does its replay |
| `ResponseHandler.MissingRefreshToken` | src/api/axiosInstance.ts:91-98 | no usable stored token: the session is cleared, no call goes out, one session-expired notice unless silent, the original error is rejected |
| `ResponseHandler.RefreshSucceeded` | src/api/axiosInstance.ts:100-111 | successful refresh: session holds the new token, slot the rotated token; exactly one refresh call with the stored token, then one replay that is the original request with only `Authorization` replaced by `Bearer <new token>` and marked retried (opt-out flag and other headers kept); the caller gets the replay's outcome, never the original error; a failed replay posts exactly its own settlement's notices |
| `ResponseHandler.RefreshFailed` | src/api/axiosInstance.ts:112-118 | failed refresh: session cleared, slot untouched, the refresh call's notice then session-expired unless silent; rejection with the refresh call's error |
| `ResponseHandler.OtherStatus` | src/api/axiosInstance.ts:121-157 | any other status, a second 401 included: no state change, the table notice unless silent or below 400, the original error rejected |
| `ResponseHandler.HandlerFollowsLifecycle` | src/api/axiosInstance.ts:52-158 | the handler's effects match the lifecycle state `FateOf` assigns: calls made, session cleared or kept, slot rotated, retry marker, and resolution only after a replay |
| `ResponseHandler.NoRefreshOnlySettles` | src/api/axiosInstance.ts:56-157 | on auth routes and replays the handler is exactly the non-refreshing settlement with no state change |
| `ResponseHandler.CallAgreesWithPost` | src/api/axiosInstance.ts:74-82 | for auth routes and replays the full pipeline equals `Http.Post`, whatever the refresh replies would be |
| `ResponseHandler.HandlerKeepsConsistency` | src/api/axiosInstance.ts:91-118 | the both-or-neither invariant survives the handler when a refresh reply, if used, carries a user |
| `ResponseHandler.ExpiredTokenRecovered` | src/api/axiosInstance.ts:89-111 | a protected call answered 401, with a stored token and a successful refresh and replay, resolves with the replay's response after three calls and no notice |
| `ResponseHandler.RefreshCanDropUser` | src/api/axiosInstance.ts:101-107 | a refresh reply without a user leaves a session with a token and no user |
| `ResponseHandler.RefreshFailureNotifiesTwice` | src/api/axiosInstance.ts:112-118 | a refresh that fails for lack of a network posts the unreachable notice and then the session-expired notice |

## Left out

- The callback itself is not modelled: registration is a flag in the state, and a notice records its message and severity, not what the snackbar component then renders.
- Console logging, the base URL, the 10-second timeout and the HTTP method are left out. They do not affect any outcome.
- axios internals are left out: config merging, default headers, and case-insensitive header names. Headers are a plain map keyed by the exact name `Authorization`.
- The `config.headers` guard in the request interceptor is not modelled, because axios always supplies a headers object.
- A failure without a request configuration is not modelled. An `undefined` `error.config` would make the handler throw at the `_retry` test. axios attaches the configuration to every request error.
- Failures of secure storage are not modelled; reads and writes always succeed. A reply whose `refreshToken` field is missing would make the storage write throw inside the `try`. Reply bodies are modelled with string token fields.
- A `message` field that is not a string (an array, say) is not modelled. The message is an optional string.
- The French wording of messages is left out; each message is a constant of `Http.Message`.
- Concurrency is left out: two requests racing the refresh, and the absence of a single-flight guard. The model handles one failure at a time.
- `src/storage.ts` is not modelled as a separate module. Its get, save and delete are reads and writes of the `slot` field.
- ResponseHandler.HandleError: its own contract states only the invariants common to every path. The per-path promises are the lemmas listed above.
- The screens, navigation, theming and the store setup file are not part of this model.

=== FILE: auth_api.dfy ===
/**
 * The auth endpoint wrappers: each is a network call through the shared
 * instance followed by store and secure-storage effects. Network answers are
 * parameters. Every one of these requests targets an auth route, so a failure
 * never reaches the refresh branch of the response interceptor.
 */
module AuthApi {
  import opened Optional
  import opened AuthSlice
  import opened Http

  /** The body of a successful login or refresh; refresh replies may omit the user. */
  datatype TokenData = TokenData(accessToken: string, refreshToken: string, user: Option<User>)

  /** A request to an auth endpoint, as the wrappers build it. */
  function Endpoint(name: string, payload: Payload): (req: Request)
    ensures IsAuthRoute(req.url) && !req.retry && !req.silent
  {
    AuthPathIsAuthRoute(name);
    Request(Some(AuthPath(name)), map[], payload, false, false)
  }

  function RefreshRequest(token: string): Request {
    Endpoint("refresh", RefreshBody(token))
  }

  /** `register`: post the four fields and hand back the response body untouched. */
  function Register(st: State, email: string, password: string, firstname: string, lastname: string, reply: Reply<Body>): (r: Posted<Body>)
    ensures r.state.session == st.session && r.state.slot == st.slot
    ensures |r.state.sent| == |st.sent| + 1 && st.sent <= r.state.sent
    ensures r.state.sent[|st.sent|].url == Some(AuthPath("register"))
    ensures r.state.sent[|st.sent|].payload == Registration(email, password, firstname, lastname)
    ensures reply.Ok? ==> r.outcome == Resolve(reply.data) && r.state.notices == st.notices
    ensures reply.Err? ==> r.outcome.Reject?
  {
    Post(st, Endpoint("register", Registration(email, password, firstname, lastname)), reply)
  }

  /** `login`: on success store the credentials, then persist the refresh token. */
  function Login(st: State, email: string, password: string, reply: Reply<TokenData>): (r: Posted<TokenData>)
    ensures |r.state.sent| == |st.sent| + 1 && st.sent <= r.state.sent
    ensures r.state.sent[|st.sent|].url == Some(AuthPath("login"))
    ensures r.state.sent[|st.sent|].payload == SignIn(email, password)
    ensures reply.Ok? ==> && CredentialsOf(r.state.session) == Some(Credentials(reply.data.accessToken, reply.data.user))
                          && r.state.slot == Some(reply.data.refreshToken)
                          && r.outcome == Resolve(reply.data)
    ensures reply.Ok? ==> r.state.notices == st.notices
    ensures reply.Err? ==> r.state.session == st.session && r.state.slot == st.slot && r.outcome.Reject?
    ensures reply.Err? ==> var out := Intercept(st.session, Endpoint("login", SignIn(email, password)));
                           && r.outcome == Reject(Settle(out, reply.error).reason)
                           && r.state.notices == st.notices + Notices(st.snackbar, Settle(out, reply.error).messages)
  {
    var p := Post(st, Endpoint("login", SignIn(email, password)), reply);
    match reply
    case Ok(d) =>
      var s := SetCredentials(p.state.session, Credentials(d.accessToken, d.user));
      Posted(p.state.(session := s, slot := Some(d.refreshToken)), p.outcome)
    case Err(_) => p
  }

  /**
   * `refreshToken`: post the stored token; on success store the new access
   * token with whatever user the reply carries, then persist the rotated token.
   */
  function RefreshToken(st: State, token: string, reply: Reply<TokenData>): (r: Posted<TokenData>)
    ensures r.state.sent == st.sent + [Intercept(st.session, RefreshRequest(token))]
    ensures reply.Ok? ==> && r.state.session == Session(Some(reply.data.accessToken), reply.data.user)
                          && r.state.slot == Some(reply.data.refreshToken)
                          && r.state.notices == st.notices
                          && r.outcome == Resolve(reply.data)
    ensures reply.Err? ==> && r.state.session == st.session && r.state.slot == st.slot
                           && r.outcome == Reject(Settle(Intercept(st.session, RefreshRequest(token)), reply.error).reason)
                           && r.state.notices == st.notices + Notices(st.snackbar, Settle(Intercept(st.session, RefreshRequest(token)), reply.error).messages)
  {
    var p := Post(st, RefreshRequest(token), reply);
    match reply
    case Ok(d) =>
      var s := SetCredentials(p.state.session, Credentials(d.accessToken, d.user));
      Posted(p.state.(session := s, slot := Some(d.refreshToken)), p.outcome)
    case Err(_) => p
  }

  /**
   * `logout`: delete the stored token first, then call the server, and clear
   * the session only when that call succeeds.
   */
  function Logout(st: State, reply: Reply<Body>): (r: Posted<()>)
    ensures r.state.slot == None
    ensures |r.state.sent| == |st.sent| + 1 && st.sent <= r.state.sent
    ensures r.state.sent[|st.sent|].url == Some(AuthPath("logout"))
    ensures HasToken(st.session) ==> && Authorization in r.state.sent[|st.sent|].headers
                                     && r.state.sent[|st.sent|].headers[Authorization] == Bearer(st.session.accessToken.value)
    ensures reply.Ok? ==> r.state.session == Initial() && r.outcome == Resolve(()) && r.state.notices == st.notices
    ensures reply.Err? ==> r.state.session == st.session && r.outcome.Reject?
    ensures reply.Err? ==> var out := Intercept(st.session, Endpoint("logout", NoPayload));
                           && r.outcome == Reject(Settle(out, reply.error).reason)
                           && r.state.notices == st.notices + Notices(st.snackbar, Settle(out, reply.error).messages)
  {
    var cleared := st.(slot := None);
    var p := Post(cleared, Endpoint("logout", NoPayload), reply);
    match reply
    case Ok(_) => Posted(p.state.(session := AuthSlice.Logout(p.state.session)), Resolve(()))
    case Err(_) => Posted(p.state, Reject(p.outcome.reason))
  }

  /** Signing in and then out, both successfully, leaves neither session nor stored token behind. */
  lemma LoginThenLogoutForgetsAll(st: State, email: string, password: string, data: TokenData, bye: Body)
    ensures var signedOut := Logout(Login(st, email, password, Ok(data)).state, Ok(bye)).state;
      signedOut.session == Initial() && signedOut.slot == None
  {
  }

  /** A second logout ends where the first one did, even though no session is left to end. */
  lemma LogoutTwice(st: State, first: Reply<Body>, second: Reply<Body>)
    requires first.Ok?
    ensures var once := Logout(st, first).state;
      var twice := Logout(once, second).state;
      twice.session == once.session && twice.slot == once.slot
  {
  }

  /** After a successful login every later request goes out with the new access token. */
  lemma LoginAuthorizesLaterRequests(st: State, email: string, password: string, data: TokenData, req: Request)
    requires Text.Truthy(data.accessToken)
    ensures var signedIn := Login(st, email, password, Ok(data)).state;
      Intercept(signedIn.session, req).headers[Authorization] == Bearer(data.accessToken)
  {
  }

  /** A failed login or refresh changes neither the session nor the stored token. */
  lemma FailedSignInChangesNothing(st: State, email: string, password: string, token: string, e: HttpError)
    ensures Login(st, email, password, Err(e)).state.session == st.session
    ensures Login(st, email, password, Err(e)).state.slot == st.slot
    ensures RefreshToken(st, token, Err(e)).state.session == st.session
    ensures RefreshToken(st, token, Err(e)).state.slot == st.slot
  {
  }
}

=== FILE: auth_slice.dfy ===
/**
 * The `auth` slice of the application store: the in-memory session holding the
 * current access token and the signed-in user, with its two reducers.
 */
module AuthSlice {
  import opened Optional

  datatype User = User(email: string, id: string)

  datatype Session = Session(accessToken: Option<string>, user: Option<User>)

  /**
   * The payload of `setCredentials`. Its declared type demands a user, but
   * callers hand over whatever the server or the store held, which can be
   * absent at run time, so the user is optional here.
   */
  datatype Credentials = Credentials(accessToken: string, user: Option<User>)

  /**
   * Token and user are present together or absent together: the invariant
   * implied by the `setCredentials` payload type, which demands both a token
   * and a user (authSlice.ts:20), and by `logout`, which clears both.
   */
  predicate Consistent(s: Session) {
    s.accessToken.Some? <==> s.user.Some?
  }

  /** Reads a session back as the `setCredentials` payload that would produce it. */
  function CredentialsOf(s: Session): Option<Credentials> {
    match s.accessToken
    case Some(t) => Some(Credentials(t, s.user))
    case None => None
  }

  /** The state the store starts in. */
  function Initial(): (s: Session)
    ensures CredentialsOf(s).None? && s.user.None?
    ensures Consistent(s)
  {
    Session(None, None)
  }

  /** `setCredentials`: the session becomes exactly the payload. */
  function SetCredentials(s: Session, p: Credentials): (r: Session)
    ensures CredentialsOf(r) == Some(p)
    ensures Consistent(r) <==> p.user.Some?
  {
    Session(Some(p.accessToken), p.user)
  }

  /** `logout`: both fields are cleared. */
  function Logout(s: Session): (r: Session)
    ensures CredentialsOf(r).None? && r.user.None?
  {
    Session(None, None)
  }

  /** The session after `setCredentials` does not depend on the session before it. */
  lemma SetCredentialsForgetsPrior(s1: Session, s2: Session, p: Credentials)
    ensures SetCredentials(s1, p) == SetCredentials(s2, p)
  {
  }

  /** Signing out takes any session back to the initial one, so doing it twice changes nothing more. */
  lemma LogoutIdempotent(s: Session)
    ensures Logout(s) == Initial()
    ensures Logout(Logout(s)) == Logout(s)
  {
  }

  /** Both reducers keep the invariant, provided the credentials carry a user. */
  lemma ReducersKeepConsistency(s: Session, p: Credentials)
    requires p.user.Some?
    ensures Consistent(SetCredentials(s, p))
    ensures Consistent(Logout(s))
  {
  }

  /** Nothing enforces the user at run time: credentials without one break the invariant. */
  lemma MissingUserBreaksConsistency(s: Session, token: string)
    ensures !Consistent(SetCredentials(s, Credentials(token, None)))
  {
  }
}

=== FILE: http.dfy ===
/**
 * The axios instance shared by every call: the request interceptor that
 * attaches the bearer token, the notification helper, and the failure paths of
 * the response interceptor that never involve a token refresh.
 */
module Http {
  import opened Optional
  import opened Text
  import opened AuthSlice

  /** Request bodies the client sends. */
  datatype Payload =
    | NoPayload
    | Registration(email: string, password: string, firstname: string, lastname: string)
    | SignIn(email: string, password: string)
    | RefreshBody(refreshToken: string)
    | AppPayload(content: string)

  /**
   * A request configuration as far as the client reads or writes it; the
   * `_retry` marker is `retry` and the `silentError` opt-out is `silent`.
   */
  datatype Request = Request(
    url: Option<string>,
    headers: map<string, string>,
    payload: Payload,
    retry: bool,
    silent: bool)

  /** A response body: absent (`null`), or an object whose `message` may be missing. */
  datatype Body = NoBody | Json(message: Option<string>)

  datatype Response = Response(status: int, data: Body)

  /** A failed request: the server's response, if one arrived, and the error code. */
  datatype HttpError = HttpError(response: Option<Response>, code: Option<string>)

  /** What a rejected promise carries: an HTTP failure, or a TypeError raised by the handler itself. */
  datatype Thrown = Raised(error: HttpError) | TypeError

  /** What the network answers to one request, supplied from outside the model. */
  datatype Reply<T> = Ok(data: T) | Err(error: HttpError)

  /** How a call settles for its caller. */
  datatype Outcome<T> = Resolve(value: T) | Reject(reason: Thrown)

  /** The user-facing messages; only which one is chosen matters, not its wording. */
  datatype Message =
    | Timeout
    | Unreachable
    | SessionExpired
    | ServerText(text: Option<string>)
    | BadRequest
    | Forbidden
    | NotFound
    | Conflict
    | TooManyRequests
    | ServerDown
    | Generic(status: int)

  datatype Severity = ErrorSeverity | SuccessSeverity | InfoSeverity

  /** Where one notice ends up: on the snackbar, or as a console warning when none is registered. */
  datatype Notice = Snackbar(message: Message, severity: Severity) | ConsoleWarning(message: Message)

  /**
   * Everything a call reads or changes: the session, the secure-storage slot
   * holding the refresh token, whether a snackbar handler is registered, the
   * notices posted (in order) and the requests put on the wire (in order).
   */
  datatype State = State(session: Session, slot: Option<string>, snackbar: bool, notices: seq<Notice>, sent: seq<Request>)

  /** The new state and the outcome of a call. */
  datatype Posted<T> = Posted(state: State, outcome: Outcome<T>)

  /** The notices a failure posts and what the caller is rejected with. */
  datatype Settled = Settled(messages: seq<Message>, reason: Thrown)

  const Authorization := "Authorization"
  const TimeoutCode := "ECONNABORTED"

  function Bearer(token: string): string {
    "Bearer " + token
  }

  /** `showError`: a notice of error severity when a snackbar is registered, a console warning otherwise. */
  function ShowError(registered: bool, m: Message): (n: Notice)
    ensures n.message == m
    ensures n.Snackbar? <==> registered
    ensures n.Snackbar? ==> n.severity == ErrorSeverity
  {
    if registered then Snackbar(m, ErrorSeverity) else ConsoleWarning(m)
  }

  /** `Notices(registered, ms)`: where each of the messages `ms`, shown in turn, ends up. */
  function Notices(registered: bool, ms: seq<Message>): (r: seq<Notice>)
    ensures |r| == |ms|
    ensures forall i :: 0 <= i < |ms| ==> r[i] == ShowError(registered, ms[i])
  {
    if ms == [] then [] else [ShowError(registered, ms[0])] + Notices(registered, ms[1..])
  }

  /** Showing two batches of messages one after the other is showing them all at once. */
  lemma NoticesConcat(registered: bool, a: seq<Message>, b: seq<Message>)
    ensures Notices(registered, a + b) == Notices(registered, a) + Notices(registered, b)
  {
  }

  /** Show the messages `ms` in order, changing nothing else. */
  function Notify(st: State, ms: seq<Message>): (r: State)
    ensures r.session == st.session && r.slot == st.slot && r.snackbar == st.snackbar && r.sent == st.sent
    ensures st.notices <= r.notices && |r.notices| == |st.notices| + |ms|
    ensures r.notices[|st.notices|..] == Notices(st.snackbar, ms)
  {
    st.(notices := st.notices + Notices(st.snackbar, ms))
  }

  /** `setSnackbarHandler`: from now on notices reach the snackbar. */
  function SetSnackbarHandler(st: State): (r: State)
    ensures r.snackbar
    ensures r.session == st.session && r.slot == st.slot && r.notices == st.notices && r.sent == st.sent
  {
    st.(snackbar := true)
  }

  /** The session holds a truthy access token: the `token &&` test. */
  predicate HasToken(s: Session)
    ensures HasToken(s) <==> s.accessToken != None && s.accessToken != Some("")
  {
    s.accessToken.Some? && Truthy(s.accessToken.value)
  }

  /** The request interceptor: attach the session's token, if any, as a bearer credential. */
  function Intercept(s: Session, req: Request): (r: Request)
    ensures r.url == req.url && r.payload == req.payload
    ensures r.retry == req.retry && r.silent == req.silent
    ensures r.headers.Keys == req.headers.Keys + (if HasToken(s) then {Authorization} else {})
    ensures forall k :: k in req.headers && k != Authorization ==> r.headers[k] == req.headers[k]
    ensures HasToken(s) ==> r.headers[Authorization] == Bearer(s.accessToken.value)
    ensures !HasToken(s) ==> r == req
  {
    if HasToken(s) then req.(headers := req.headers[Authorization := Bearer(s.accessToken.value)])
    else req
  }

  /** Intercepting an already intercepted request changes nothing more. */
  lemma InterceptIdempotent(s: Session, req: Request)
    ensures Intercept(s, Intercept(s, req)) == Intercept(s, req)
  {
  }

  /** With a token, what goes out does not depend on any Authorization header the request already had. */
  lemma InterceptOverwrites(s: Session, req: Request, prior: string)
    requires HasToken(s)
    ensures Intercept(s, req.(headers := req.headers[Authorization := prior])) == Intercept(s, req)
  {
    assert req.headers[Authorization := prior][Authorization := Bearer(s.accessToken.value)]
      == req.headers[Authorization := Bearer(s.accessToken.value)];
  }

  /** The auth-route test: the URL mentions `/login`, `/register` or `/auth`. */
  predicate IsAuthRoute(url: Option<string>)
    ensures IsAuthRoute(url) <==> url.Some? && (|| (exists i :: OccursAt(url.value, "/login", i))
                                                || (exists i :: OccursAt(url.value, "/register", i))
                                                || (exists i :: OccursAt(url.value, "/auth", i)))
  {
    if url.None? then false
    else
      ContainsIffOccurs(url.value, "/login");
      ContainsIffOccurs(url.value, "/register");
      ContainsIffOccurs(url.value, "/auth");
      Contains(url.value, "/login") || Contains(url.value, "/register") || Contains(url.value, "/auth")
  }

  /** The path of an auth endpoint. */
  function AuthPath(name: string): string {
    "/auth/" + name
  }

  lemma AuthPathIsAuthRoute(name: string)
    ensures IsAuthRoute(Some(AuthPath(name)))
  {
    assert AuthPath(name) == "/auth" + ("/" + name);
    StartsWithContains("/auth", "/" + name);
  }

  /**
   * A 401 on a request not yet retried and not on an auth route: the refresh
   * branch. Marking the request retried closes the branch for it.
   */
  predicate EntersRefresh(req: Request, err: HttpError)
    ensures EntersRefresh(req, err) ==> err.response.Some? && err.response.value.status == 401
    ensures !IsAuthRoute(req.url) && !req.retry && err.response.Some? && err.response.value.status == 401 ==> EntersRefresh(req, err)
  {
    && err.response.Some?
    && err.response.value.status == 401
    && !req.retry
    && !IsAuthRoute(req.url)
  }

  /** Once a request is marked retried, no failure of it enters the refresh branch again. */
  lemma RetryClosesRefresh(req: Request, err: HttpError, again: HttpError)
    requires EntersRefresh(req, err)
    ensures !EntersRefresh(req.(retry := true), again)
  {
  }

  /** `data?.message` */
  function MessageOf(data: Body): Option<string> {
    match data
    case NoBody => None
    case Json(m) => m
  }

  /** The server supplied a truthy message. */
  predicate ServerSaid(data: Body) {
    MessageOf(data).Some? && Truthy(MessageOf(data).value)
  }

  /** The statuses whose message never depends on the server's. */
  const FixedStatuses: set<int> := {403, 404, 429, 500, 502, 503}

  /** The message an error status gets when the server supplied none. */
  function Fallback(status: int): (m: Message)
    ensures m.Generic? <==> status !in FixedStatuses + {400, 409}
    ensures m.Generic? ==> m.status == status
    ensures m == BadRequest <==> status == 400
    ensures m == Forbidden <==> status == 403
    ensures m == NotFound <==> status == 404
    ensures m == Conflict <==> status == 409
    ensures m == TooManyRequests <==> status == 429
    ensures m == ServerDown <==> status == 500 || status == 502 || status == 503
    ensures !m.ServerText? && m != Timeout && m != Unreachable && m != SessionExpired
  {
    if status == 400 then BadRequest
    else if status == 403 then Forbidden
    else if status == 404 then NotFound
    else if status == 409 then Conflict
    else if status == 429 then TooManyRequests
    else if status == 500 || status == 502 || status == 503 then ServerDown
    else Generic(status)
  }

  /** The status table: the server's message where one is preferred and given, the fallback otherwise. */
  function StatusMessage(status: int, data: Body): (m: Message)
    requires status >= 400
    ensures m.ServerText? <==> status !in FixedStatuses && ServerSaid(data)
    ensures m.ServerText? ==> m.text == MessageOf(data)
    ensures !m.ServerText? ==> m == Fallback(status)
  {
    if status in FixedStatuses || !ServerSaid(data) then Fallback(status)
    else ServerText(MessageOf(data))
  }

  /** No response at all: a timeout or an unreachable server. */
  function NoResponse(req: Request, err: HttpError): (r: Settled)
    requires err.response.None?
    ensures r.reason == Raised(err)
    ensures |r.messages| == if req.silent then 0 else 1
    ensures forall m <- r.messages :: (m == Timeout || m == Unreachable) && (m == Timeout <==> err.code == Some(TimeoutCode))
  {
    if req.silent then Settled([], Raised(err))
    else if err.code == Some(TimeoutCode) then Settled([Timeout], Raised(err))
    else Settled([Unreachable], Raised(err))
  }

  /**
   * A 401 on an auth route: the server's message is shown whatever the
   * opt-out says; a body that is not an object makes reading it throw.
   */
  function AuthRouteRejection(err: HttpError): (r: Settled)
    requires err.response.Some?
    ensures err.response.value.data.Json? ==> r.messages == [ServerText(err.response.value.data.message)] && r.reason == Raised(err)
    ensures err.response.value.data.NoBody? ==> r.messages == [] && r.reason == TypeError
  {
    match err.response.value.data
    case Json(m) => Settled([ServerText(m)], Raised(err))
    case NoBody => Settled([], TypeError)
  }

  /** Any other answered failure: at most one notice from the status table, then the same error again. */
  function StatusFailure(req: Request, err: HttpError): (r: Settled)
    requires err.response.Some?
    ensures r.reason == Raised(err)
    ensures |r.messages| == if req.silent || err.response.value.status < 400 then 0 else 1
    ensures forall m <- r.messages :: err.response.value.status >= 400 && m == StatusMessage(err.response.value.status, err.response.value.data)
  {
    var resp := err.response.value;
    if req.silent || resp.status < 400 then Settled([], Raised(err))
    else Settled([StatusMessage(resp.status, resp.data)], Raised(err))
  }

  /** The response interceptor on every failure that does not enter the refresh branch. */
  function Settle(req: Request, err: HttpError): (r: Settled)
    requires !EntersRefresh(req, err)
    ensures |r.messages| <= 1
    ensures r.reason == Raised(err) || r.reason == TypeError
    ensures r.reason == TypeError ==> err.response.Some? && err.response.value.status == 401 && err.response.value.data.NoBody?
  {
    if err.response.None? then NoResponse(req, err)
    else if err.response.value.status == 401 && !req.retry then AuthRouteRejection(err)
    else StatusFailure(req, err)
  }

  /**
   * One call through the instance for a request whose failures cannot enter
   * the refresh branch (an auth route, or a request already retried):
   * intercept, send, and settle a failure.
   */
  function Post<T>(st: State, req: Request, reply: Reply<T>): (r: Posted<T>)
    requires req.retry || IsAuthRoute(req.url)
    ensures r.state.session == st.session && r.state.slot == st.slot && r.state.snackbar == st.snackbar
    ensures r.state.sent == st.sent + [Intercept(st.session, req)]
    ensures reply.Ok? ==> r.outcome == Resolve(reply.data) && r.state.notices == st.notices
    ensures reply.Err? ==> r.outcome.Reject? && st.notices <= r.state.notices && |r.state.notices| <= |st.notices| + 1
    ensures reply.Err? ==> && r.outcome == Reject(Settle(Intercept(st.session, req), reply.error).reason)
                           && r.state.notices == st.notices + Notices(st.snackbar, Settle(Intercept(st.session, req), reply.error).messages)
  {
    var out := Intercept(st.session, req);
    var st1 := st.(sent := st.sent + [out]);
    match reply
    case Ok(v) => Posted(st1, Resolve(v))
    case Err(e) =>
      var s := Settle(out, e);
      Posted(Notify(st1, s.messages), Reject(s.reason))
  }
}

=== FILE: optional.dfy ===
/** The present-or-absent value that stands for every nullable field of the client. */
module Optional {

  datatype Option<+T> = None | Some(value: T)
}

=== FILE: response_handler.dfy ===
/**
 * The failure side of the response interceptor: classify the failure, and on
 * a 401 from a protected route read the stored refresh token, refresh, and
 * replay the original request once. The stored token, the refresh reply and
 * the replay's reply come from outside.
 */
module ResponseHandler {
  import opened Optional
  import opened Text
  import opened AuthSlice
  import opened Http
  import AuthApi

  /** The state after the handler, the original request's configuration as it left it, and the caller's outcome. */
  datatype Handled<T> = Handled(state: State, config: Request, outcome: Outcome<T>)

  /** The session-expired notice, unless the request opted out. */
  function Expired(silent: bool): seq<Message> {
    if silent then [] else [SessionExpired]
  }

  /** The stored refresh token is usable: neither null nor empty, the `!refresh` test negated. */
  predicate Usable(slot: Option<string>)
    ensures Usable(slot) <==> slot != None && slot != Some("")
  {
    slot.Some? && Truthy(slot.value)
  }

  /** The response interceptor's error handler. */
  function HandleError<T>(st: State, req: Request, err: HttpError, refresh: Reply<AuthApi.TokenData>, retry: Reply<T>): (r: Handled<T>)
    ensures st.notices <= r.state.notices && st.sent <= r.state.sent
    ensures r.state.snackbar == st.snackbar
    ensures |r.state.sent| <= |st.sent| + 2
    ensures r.state.slot == st.slot || (refresh.Ok? && r.state.slot == Some(refresh.data.refreshToken))
    ensures r.outcome.Resolve? ==> retry.Ok? && r.outcome.value == retry.data
    ensures r.config.url == req.url && r.config.payload == req.payload && r.config.silent == req.silent
  {
    if !EntersRefresh(req, err) then
      var s := Settle(req, err);
      Handled(Notify(st, s.messages), req, Reject(s.reason))
    else
      var config := req.(retry := true);
      if !Usable(st.slot) then
        var st1 := st.(session := AuthSlice.Logout(st.session));
        Handled(Notify(st1, Expired(req.silent)), config, Reject(Raised(err)))
      else
        var p := AuthApi.RefreshToken(st, st.slot.value, refresh);
        match p.outcome
        case Resolve(data) =>
          var st1 := p.state.(session := SetCredentials(p.state.session, Credentials(data.accessToken, p.state.session.user)),
                              slot := Some(data.refreshToken));
          var replay := config.(headers := config.headers[Authorization := Bearer(data.accessToken)]);
          var q := Post(st1, replay, retry);
          Handled(q.state, replay, q.outcome)
        case Reject(reason) =>
          var st1 := p.state.(session := AuthSlice.Logout(p.state.session));
          Handled(Notify(st1, Expired(req.silent)), config, Reject(reason))
  }

  /** `axiosInstance(req)`: intercept, send, and hand a failure to the error handler. */
  function Call<T>(st: State, req: Request, reply: Reply<T>, refresh: Reply<AuthApi.TokenData>, retry: Reply<T>): (r: Handled<T>)
    ensures |st.sent| < |r.state.sent| && st.sent <= r.state.sent
    ensures r.state.sent[|st.sent|] == Intercept(st.session, req)
    ensures reply.Ok? ==> r.state == st.(sent := st.sent + [Intercept(st.session, req)]) && r.outcome == Resolve(reply.data)
  {
    var out := Intercept(st.session, req);
    var st1 := st.(sent := st.sent + [out]);
    match reply
    case Ok(v) => Handled(st1, out, Resolve(v))
    case Err(e) => HandleError(st1, out, e, refresh, retry)
  }

  /** No response: nothing but the notice changes, no refresh is attempted, the error comes back. */
  lemma NetworkFailure<T>(st: State, req: Request, err: HttpError, refresh: Reply<AuthApi.TokenData>, retry: Reply<T>)
    requires err.response.None?
    ensures var r := HandleError(st, req, err, refresh, retry);
      && r.state.session == st.session && r.state.slot == st.slot && r.state.sent == st.sent
      && r.config == req
      && r.outcome == Reject(Raised(err))
      && (req.silent ==> r.state.notices == st.notices)
      && (!req.silent ==> r.state.notices == st.notices + Notices(st.snackbar, [if err.code == Some(TimeoutCode) then Timeout else Unreachable]))
  {
  }

  /** A first 401 on an auth route: the server's message, no refresh, no state change, the error comes back. */
  lemma AuthRouteRejected<T>(st: State, req: Request, err: HttpError, refresh: Reply<AuthApi.TokenData>, retry: Reply<T>)
    requires err.response.Some? && err.response.value.status == 401 && !req.retry && IsAuthRoute(req.url)
    ensures var r := HandleError(st, req, err, refresh, retry);
      && r.state.session == st.session && r.state.slot == st.slot && r.state.sent == st.sent
      && r.config == req
      && (err.response.value.data.Json? ==>
            r.state.notices == st.notices + Notices(st.snackbar, [ServerText(err.response.value.data.message)]) && r.outcome == Reject(Raised(err)))
      && (err.response.value.data.NoBody? ==> r.state.notices == st.notices && r.outcome == Reject(TypeError))
  {
  }

  /** On an auth route the opt-out flag makes no difference. */
  lemma AuthRouteIgnoresSilent<T>(st: State, req: Request, err: HttpError, refresh: Reply<AuthApi.TokenData>, retry: Reply<T>)
    requires err.response.Some? && err.response.value.status == 401 && !req.retry && IsAuthRoute(req.url)
    ensures HandleError(st, req.(silent := true), err, refresh, retry).state == HandleError(st, req.(silent := false), err, refresh, retry).state
    ensures HandleError(st, req.(silent := true), err, refresh, retry).outcome == HandleError(st, req.(silent := false), err, refresh, retry).outcome
  {
  }

  /**
   * The retry marker: a request already retried never reaches the refresh
   * branch, and a request that reaches it leaves marked, whatever happens next,
   * as does its replay.
   */
  lemma RetryMarker<T>(st: State, req: Request, err: HttpError, refresh: Reply<AuthApi.TokenData>, retry: Reply<T>)
    ensures var r := HandleError(st, req, err, refresh, retry);
      && (req.retry ==> r.state.session == st.session && r.state.slot == st.slot && r.state.sent == st.sent && r.config == req)
      && (EntersRefresh(req, err) ==> r.config.retry && forall i :: |st.sent| < i < |r.state.sent| ==> r.state.sent[i].retry)
  {
  }

  /** A 401 on a protected route with no usable stored token: sign out, no refresh, the error comes back. */
  lemma MissingRefreshToken<T>(st: State, req: Request, err: HttpError, refresh: Reply<AuthApi.TokenData>, retry: Reply<T>)
    requires EntersRefresh(req, err) && !Usable(st.slot)
    ensures var r := HandleError(st, req, err, refresh, retry);
      && r.state.session == Initial()
      && r.state.slot == st.slot && r.state.sent == st.sent
      && r.state.notices == st.notices + Notices(st.snackbar, Expired(req.silent))
      && r.outcome == Reject(Raised(err))
  {
  }

  /**
   * A successful refresh: the session holds the new access token (and the
   * user the refresh reply carried), the rotated token is stored, one refresh
   * call and one replay carrying the new token go out, and the caller gets the
   * replay's outcome.
   */
  lemma RefreshSucceeded<T>(st: State, req: Request, err: HttpError, refresh: Reply<AuthApi.TokenData>, retry: Reply<T>)
    requires EntersRefresh(req, err) && Usable(st.slot) && refresh.Ok?
    ensures var r := HandleError(st, req, err, refresh, retry);
      && r.state.session == Session(Some(refresh.data.accessToken), refresh.data.user)
      && r.state.slot == Some(refresh.data.refreshToken)
      && |r.state.sent| == |st.sent| + 2
      && r.state.sent[|st.sent|] == Intercept(st.session, AuthApi.RefreshRequest(st.slot.value))
      && r.state.sent[|st.sent| + 1].url == req.url
      && r.state.sent[|st.sent| + 1].payload == req.payload
      && r.state.sent[|st.sent| + 1].retry
      && Authorization in r.state.sent[|st.sent| + 1].headers
      && r.state.sent[|st.sent| + 1].headers[Authorization] == Bearer(refresh.data.accessToken)
      && r.state.sent[|st.sent| + 1] == Intercept(r.state.session, req.(retry := true, headers := req.headers[Authorization := Bearer(refresh.data.accessToken)]))
      && r.state.sent[|st.sent| + 1].silent == req.silent
      && (retry.Ok? ==> r.outcome == Resolve(retry.data) && r.state.notices == st.notices)
      && (retry.Err? ==> r.outcome == Reject(Raised(retry.error)))
      && (retry.Err? ==> r.state.notices == st.notices + Notices(st.snackbar, Settle(r.state.sent[|st.sent| + 1], retry.error).messages))
  {
  }

  /**
   * A failed refresh: sign out, leave the stored token alone, post the refresh
   * call's own notice and then the session-expired one, and reject with what
   * the refresh call was rejected with.
   */
  lemma RefreshFailed<T>(st: State, req: Request, err: HttpError, refresh: Reply<AuthApi.TokenData>, retry: Reply<T>)
    requires EntersRefresh(req, err) && Usable(st.slot) && refresh.Err?
    ensures var r := HandleError(st, req, err, refresh, retry);
      var call := Intercept(st.session, AuthApi.RefreshRequest(st.slot.value));
      && r.state.session == Initial()
      && r.state.slot == st.slot
      && r.state.sent == st.sent + [call]
      && r.state.notices == st.notices + Notices(st.snackbar, Settle(call, refresh.error).messages + Expired(req.silent))
      && r.outcome == Reject(Settle(call, refresh.error).reason)
      && (r.outcome == Reject(Raised(refresh.error)) || r.outcome == Reject(TypeError))
  {
    var call := Intercept(st.session, AuthApi.RefreshRequest(st.slot.value));
    NoticesConcat(st.snackbar, Settle(call, refresh.error).messages, Expired(req.silent));
  }

  /** Any other failure, a second 401 included: at most the table's notice, nothing else changes, the error comes back. */
  lemma OtherStatus<T>(st: State, req: Request, err: HttpError, refresh: Reply<AuthApi.TokenData>, retry: Reply<T>)
    requires err.response.Some? && !(err.response.value.status == 401 && !req.retry)
    ensures var r := HandleError(st, req, err, refresh, retry);
      var resp := err.response.value;
      && r.state.session == st.session && r.state.slot == st.slot && r.state.sent == st.sent
      && r.config == req
      && r.outcome == Reject(Raised(err))
      && (req.silent || resp.status < 400 ==> r.state.notices == st.notices)
      && (!req.silent && resp.status >= 400 ==> r.state.notices == st.notices + Notices(st.snackbar, [StatusMessage(resp.status, resp.data)]))
  {
  }

  /** The terminal states of a failed request's lifecycle. */
  datatype Fate =
    | NetworkUnreachable
    | AuthRouteRefused
    | NoRefreshToken
    | RefreshRejected
    | Retried
    | HttpFailure(status: int)

  /** Which terminal state a failure reaches, read off the failure, the stored token and the refresh reply. */
  function FateOf(slot: Option<string>, req: Request, err: HttpError, refresh: Reply<AuthApi.TokenData>): Fate {
    match err.response
    case None => NetworkUnreachable
    case Some(resp) =>
      if resp.status != 401 || req.retry then HttpFailure(resp.status)
      else if IsAuthRoute(req.url) then AuthRouteRefused
      else if !Usable(slot) then NoRefreshToken
      else if refresh.Err? then RefreshRejected
      else Retried
  }

  /** The number of calls the handler itself puts on the wire in each terminal state. */
  function CallsIn(f: Fate): nat {
    match f
    case Retried => 2
    case RefreshRejected => 1
    case _ => 0
  }

  /** The session is ended exactly in the two session-terminating states. */
  predicate Terminates(f: Fate) {
    f == NoRefreshToken || f == RefreshRejected
  }

  /** The handler's effects follow the lifecycle state the failure reaches. */
  lemma HandlerFollowsLifecycle<T>(st: State, req: Request, err: HttpError, refresh: Reply<AuthApi.TokenData>, retry: Reply<T>)
    ensures var r := HandleError(st, req, err, refresh, retry);
      var f := FateOf(st.slot, req, err, refresh);
      && |r.state.sent| == |st.sent| + CallsIn(f)
      && (Terminates(f) ==> r.state.session == Initial())
      && (!Terminates(f) && f != Retried ==> r.state.session == st.session)
      && (r.state.slot != st.slot ==> f == Retried)
      && (r.config.retry <==> req.retry || Terminates(f) || f == Retried)
      && (r.outcome.Resolve? ==> f == Retried)
      && (f != Retried && f != RefreshRejected ==> r.outcome == Reject(Raised(err)) || r.outcome == Reject(TypeError))
  {
  }

  /** Failures that cannot enter the refresh branch leave session, token and wire alone and only settle. */
  lemma NoRefreshOnlySettles<T>(st: State, req: Request, err: HttpError, refresh: Reply<AuthApi.TokenData>, retry: Reply<T>)
    requires req.retry || IsAuthRoute(req.url)
    ensures var r := HandleError(st, req, err, refresh, retry);
      && r == Handled(Notify(st, Settle(req, err).messages), req, Reject(Settle(req, err).reason))
  {
  }

  /** For auth routes and replays the full pipeline is exactly `Post`, whatever the refresh oracles say. */
  lemma CallAgreesWithPost<T>(st: State, req: Request, reply: Reply<T>, refresh: Reply<AuthApi.TokenData>, retry: Reply<T>)
    requires req.retry || IsAuthRoute(req.url)
    ensures Call(st, req, reply, refresh, retry).state == Post(st, req, reply).state
    ensures Call(st, req, reply, refresh, retry).outcome == Post(st, req, reply).outcome
  {
  }

  /** The session invariant survives the handler when the refresh reply, if used, carries a user. */
  lemma HandlerKeepsConsistency<T>(st: State, req: Request, err: HttpError, refresh: Reply<AuthApi.TokenData>, retry: Reply<T>)
    requires Consistent(st.session)
    requires refresh.Ok? ==> refresh.data.user.Some?
    ensures Consistent(HandleError(st, req, err, refresh, retry).state.session)
  {
  }

  /** An expired token recovered end to end: three calls out, the caller gets the replay's response. */
  lemma ExpiredTokenRecovered(st: State, path: string, body: Payload, resp: Body, data: AuthApi.TokenData, answer: Response)
    requires !IsAuthRoute(Some(path)) && Usable(st.slot)
    ensures var req := Request(Some(path), map[], body, false, false);
      var r := Call(st, req, Err(HttpError(Some(Response(401, resp)), None)), Ok(data), Ok(answer));
      && r.outcome == Resolve(answer)
      && |r.state.sent| == |st.sent| + 3
      && r.state.sent[|st.sent| + 1].payload == RefreshBody(st.slot.value)
      && r.state.sent[|st.sent| + 2].headers[Authorization] == Bearer(data.accessToken)
      && r.state.notices == st.notices
  {
  }

  /**
   * Every notice the handler posts goes through `showError`: with a snackbar
   * handler registered each is an error-severity snackbar, otherwise each is a
   * console warning.
   */
  lemma HandlerNoticesAreErrors<T>(st: State, req: Request, err: HttpError, refresh: Reply<AuthApi.TokenData>, retry: Reply<T>)
    ensures var r := HandleError(st, req, err, refresh, retry);
      forall i :: |st.notices| <= i < |r.state.notices| ==>
        && (st.snackbar ==> r.state.notices[i].Snackbar? && r.state.notices[i].severity == ErrorSeverity)
        && (!st.snackbar ==> r.state.notices[i].ConsoleWarning?)
  {
    if EntersRefresh(req, err) && Usable(st.slot) && refresh.Ok? {
      var p := AuthApi.RefreshToken(st, st.slot.value, refresh);
      var data := refresh.data;
      var st1 := p.state.(session := SetCredentials(p.state.session, Credentials(data.accessToken, p.state.session.user)),
                          slot := Some(data.refreshToken));
      var replay := req.(retry := true).(headers := req.headers[Authorization := Bearer(data.accessToken)]);
      var out := Intercept(st1.session, replay);
      if retry.Err? {
        var ms := Settle(out, retry.error).messages;
        assert HandleError(st, req, err, refresh, retry).state.notices == st.notices + Notices(st.snackbar, ms);
      }
    }
  }

  /** Once a snackbar handler is registered, every notice the error handler posts is an error-severity snackbar. */
  lemma RegisteredSnackbarShowsErrors<T>(st: State, req: Request, err: HttpError, refresh: Reply<AuthApi.TokenData>, retry: Reply<T>)
    ensures var before := SetSnackbarHandler(st);
      var r := HandleError(before, req, err, refresh, retry);
      forall i :: |st.notices| <= i < |r.state.notices| ==>
        r.state.notices[i].Snackbar? && r.state.notices[i].severity == ErrorSeverity
  {
    HandlerNoticesAreErrors(SetSnackbarHandler(st), req, err, refresh, retry);
  }

  /** `register` through the full pipeline: one call, and the refresh replies never matter. */
  lemma RegisterIsOneCall(st: State, email: string, password: string, firstname: string, lastname: string,
                          reply: Reply<Body>, refresh: Reply<AuthApi.TokenData>, retry: Reply<Body>)
    ensures var req := AuthApi.Endpoint("register", Registration(email, password, firstname, lastname));
      && AuthApi.Register(st, email, password, firstname, lastname, reply).state == Call(st, req, reply, refresh, retry).state
      && AuthApi.Register(st, email, password, firstname, lastname, reply).outcome == Call(st, req, reply, refresh, retry).outcome
  {
    var req := AuthApi.Endpoint("register", Registration(email, password, firstname, lastname));
    CallAgreesWithPost(st, req, reply, refresh, retry);
  }

  /** The network step of `login` and of `refreshToken` is one call of the full pipeline as well. */
  lemma SignInCallsAreOneCall(st: State, email: string, password: string, token: string,
                              reply: Reply<AuthApi.TokenData>, refresh: Reply<AuthApi.TokenData>, retry: Reply<AuthApi.TokenData>)
    ensures var login := AuthApi.Endpoint("login", SignIn(email, password));
      && Call(st, login, reply, refresh, retry).state == Post(st, login, reply).state
      && Call(st, login, reply, refresh, retry).outcome == Post(st, login, reply).outcome
    ensures var renew := AuthApi.RefreshRequest(token);
      && Call(st, renew, reply, refresh, retry).state == Post(st, renew, reply).state
      && Call(st, renew, reply, refresh, retry).outcome == Post(st, renew, reply).outcome
  {
    CallAgreesWithPost(st, AuthApi.Endpoint("login", SignIn(email, password)), reply, refresh, retry);
    CallAgreesWithPost(st, AuthApi.RefreshRequest(token), reply, refresh, retry);
  }

  /** A sample protected route. */
  lemma ItemsIsProtected()
    ensures !IsAuthRoute(Some("/items"))
  {
    assert "/items"[1..] == "items";
    assert "/items"[..5][1] != "/auth"[1];
    assert "/items"[..6][1] != "/login"[1];
  }

  /**
   * The refresh reply's user replaces the session's, so a reply without one
   * leaves a token without a user.
   */
  lemma RefreshCanDropUser(u: User)
    ensures var st := State(Session(Some("old"), Some(u)), Some("stored"), true, [], []);
      var req := Request(Some("/items"), map[], NoPayload, false, false);
      var err := HttpError(Some(Response(401, NoBody)), None);
      var r := HandleError(st, req, err, Ok(AuthApi.TokenData("new", "rotated", None)), Ok(Response(200, NoBody)));
      Consistent(st.session) && !Consistent(r.state.session)
  {
    ItemsIsProtected();
  }

  /** A refresh that fails over the network posts two notices for one failed request. */
  lemma RefreshFailureNotifiesTwice()
    ensures var st := State(Session(Some("old"), None), Some("stored"), true, [], []);
      var req := Request(Some("/items"), map[], NoPayload, false, false);
      var err := HttpError(Some(Response(401, NoBody)), None);
      var r := HandleError(st, req, err, Err(HttpError(None, None)), Ok(Response(200, NoBody)));
      r.state.notices == [Snackbar(Unreachable, ErrorSeverity), Snackbar(SessionExpired, ErrorSeverity)]
  {
    ItemsIsProtected();
  }
}

=== FILE: text.dfy ===
/**
 * The two string operations the client relies on: JavaScript truthiness of a
 * string and `String.prototype.includes`.
 */
module Text {

  /** Every string except the empty one is truthy. */
  predicate Truthy(s: string) {
    s != ""
  }

  /** `s.includes(sub)`: `sub` occurs somewhere in `s` (the empty string occurs everywhere). */
  function Contains(s: string, sub: string): (r: bool)
    ensures r ==> |sub| <= |s|
    ensures |sub| <= |s| && s[..|sub|] == sub ==> r
    decreases |s|
  {
    if |sub| > |s| then false
    else if s[..|sub|] == sub then true
    else Contains(s[1..], sub)
  }

  /** `sub` sits in `s` starting at index `i`. */
  ghost predicate OccursAt(s: string, sub: string, i: int) {
    0 <= i && i + |sub| <= |s| && s[i..i + |sub|] == sub
  }

  /** `Contains` agrees with the positional definition of a substring. */
  lemma {:induction false} ContainsIffOccurs(s: string, sub: string)
    ensures Contains(s, sub) <==> exists i :: OccursAt(s, sub, i)
    decreases |s|
  {
    if |sub| > |s| {
    } else if s[..|sub|] == sub {
      assert OccursAt(s, sub, 0);
    } else {
      ContainsIffOccurs(s[1..], sub);
      if Contains(s[1..], sub) {
        var i :| OccursAt(s[1..], sub, i);
        assert s[1..][i..i + |sub|] == s[i + 1..i + 1 + |sub|];
        assert OccursAt(s, sub, i + 1);
      }
      if exists i :: OccursAt(s, sub, i) {
        var i :| OccursAt(s, sub, i);
        assert i != 0;
        assert s[1..][i - 1..i - 1 + |sub|] == s[i..i + |sub|];
        assert OccursAt(s[1..], sub, i - 1);
      }
    }
  }

  /** A string contains everything it starts with, whatever follows. */
  lemma StartsWithContains(prefix: string, rest: string)
    ensures Contains(prefix + rest, prefix)
  {
    assert (prefix + rest)[..|prefix|] == prefix;
  }
}
